=== FILE: README.md ===
# Number server: per-frame protocol model

A Dafny model of the protocol core of a small TCP "number server" (`main.go`).
Clients send fixed ten-byte frames: nine payload bytes and a terminator. The
server checks each payload with a digit validator. It keeps a set of the keys it
has seen, counts new and duplicate keys, and acknowledges each first-seen key
with `"message received: " + key-without-leading-zeros + "\n"`. The sentinel
payload `terminate` shuts the whole server down. A reporter periodically reads
the counters and resets the per-interval ones.

The model is a pure, sequential state machine:

- `Bytes`: the byte type (`bv8`), the ASCII constants, and runs of `'0'`.
- `Validator`: `checkForCharacters` and `checkForTerminate`.
  - `IsNumeric` states the acceptance rule without a scan.
  - `CheckForCharacters` is the source's one-pass loop with a separator counter, proved to decide `IsNumeric`.
  - `Terminate` is the nine-byte sentinel.
- `Trim`: `strings.TrimLeft(key, "0")`, modelled as `TrimLeftZeros`.
- `Server`: the state (seen set plus the `unique`, `duplicates` and `total` counters) and the operations.
  - `unique` is the source's `new` counter; `new` is a Dafny keyword.
  - `Step` is one pass of a session's loop: a read result in, a new state and an `Action` out. The action is `Close`, `CloseAndShutdown` or `Continue` with an optional response.
  - `Reset` and `CreateReport` are the reporter's snapshot-and-reset.
  - `RunSession` is one connection's loop up to the step that closes it.
  - `Run` folds `Step` and reporter ticks over a serialised sequence of events from all sessions. It stops at the first sentinel frame. In the source, once the quit channel is closed, a session that checks it at the top of its loop (`main.go:121-124`) returns without reading again. A session already blocked in its read is not stopped this way (see "Left out").
- `Sessions`: what one connection's loop amounts to: which keys it acknowledges, and when and how it ends.
- `Traces`: what a whole event sequence does to the state. It is stated against reference counts taken from the events alone.
- `Scenarios`: the frames of the repository's own test cases and a few edge cases, stated as lemmas about the model.

The model follows what the code does, not what its comments suggest.
- The comment on the read buffer (`main.go:118`) describes a frame as nine digits and a newline. The code checks only the byte count (`main.go:135`) and never looks at the tenth byte: both the validated slice (`main.go:142`) and the key (`main.go:155`) are bytes 0..8. `Traces.StepIgnoresTerminator` states this.
- The validator accepts one `.` anywhere in the payload, so `12345.789` is a valid key (`Scenarios.OneDotAllowed`).

Assumption: the source checks membership without the lock and inserts under the lock (`main.go:158-162`). This model makes check-and-insert one atomic step. Two sessions racing on the same key, which in the source could both be acknowledged or crash the process (a concurrent map read and map write is a fatal error in Go), are therefore outside the model. A report is likewise one atomic step. The source reads the three counters (`main.go:210-212`) and only then zeroes `new` and `duplicates` (`main.go:215-216`), so an increment from another session in between (`main.go:169`, `175`) is shown in no report (see "Left out").

## Model

| member | source | states |
|---|---|---|
| `Validator.CheckForCharacters` | main.go:189-207 | accepts a payload exactly when every byte is an ASCII digit or `.` and no two positions both hold `.`; any other byte or a second `.` rejects |
| `Validator.IsTerminate` | main.go:184-187 | the exact comparison with `terminate`; a payload that matches is nine bytes long and fails the validator, so the sentinel is reached only on the invalid-payload path (`main.go:142-143`) |
| `Validator.NumericIsNotTerminate` | main.go:141-148 | no payload the validator accepts is the sentinel |
| `Validator.CapitalisedTerminateIsPlainInvalid` | main.go:184-187 | the sentinel comparison is case-sensitive: `Terminate` is not the sentinel, and it is also not numeric |
| `Trim.TrimLeftZeros` | main.go:164 | the display form is a suffix of the key that does not start with `'0'`, and the key is exactly a run of `'0'` followed by it |
| `Trim.TrimOfPadded` | main.go:164 | any run of leading zeros in front of a part that does not start with `'0'` is removed, and that part is returned whole |
| `Trim.TrimIdempotent` | main.go:164 | trimming an already-trimmed key changes nothing |
| `Trim.TrimInjectiveAtFixedWidth` | main.go:155-164 | two keys of equal length with the same display form are the same key |
| `Server.Ack` | main.go:164-167 | the response is the fixed prefix `message received: `, then the key's display form, then a newline, and nothing else |
| `Server.AckDeterminesKey` | main.go:164-167 | two equal-length keys with the same acknowledgement bytes are the same key |
| `Server.Step` | main.go:126-177 | a bad read count or an invalid payload leaves the state unchanged and closes; the sentinel, and only the sentinel, closes and shuts down; a first-seen key is added and bumps `new` and `total` and gets `message received: <trimmed key>\n`; a repeated key bumps only `duplicates` and gets no response |
| `Server.Reset` | main.go:79-82 | the per-interval counters become 0; `total` and the seen set are unchanged |
| `Server.CreateReport` | main.go:209-217 | the report shows the counters as they were before the reset, and the state afterwards is the reset state |
| `Server.RunSession` | main.go:116-182 | along one connection the seen set only grows and no counter decreases; the number of responses equals the growth of `total`, of `new` and of the seen set; the session is still reading only if every frame so far was valid |
| `Server.Run` | main.go:89-125 | over any serialised sequence of frames and reports, keys are only added, `total` never decreases, and `total` grows by exactly as much as the seen set |
| `Sessions.SessionStopsAtInvalid` | main.go:128-151 | a first read that is not a valid frame ends the session with no response and no change: shutdown if it is the sentinel, a plain close otherwise |
| `Sessions.SessionNewKeysAreNineBytes` | main.go:155-161 | every key a session adds is nine bytes long |
| `Sessions.SessionSeenIsValidKeys` | main.go:127-162 | the seen set after a session is the old set plus exactly the payloads (bytes 0..8) of the frames it read before its first frame that is not valid; no other key is added |
| `Sessions.SessionAnswersOnlyNewKeys` | main.go:158-167 | every response of a session is the acknowledgement of a key that this session added to the seen set |
| `Sessions.SessionAnswersEveryNewKey` | main.go:158-167 | every key a session added to the seen set is acknowledged among its responses |
| `Sessions.SessionResponsesDistinct` | main.go:158-177 | no two responses of a session are equal, so with the two lemmas above the responses match the new keys one to one (a repeated key gets nothing) |
| `Sessions.SessionWaitsIffAllValid` | main.go:120-152 | a session is still reading after its frames if and only if every one of them was valid |
| `Sessions.ShutDownOnlyOnSentinel` | main.go:141-147 | a session that shut the server down met a sentinel frame after valid frames only |
| `Sessions.SentinelShutsDown` | main.go:141-147 | a sentinel frame after valid frames only makes the session shut the server down |
| `Sessions.SessionShutsDownOnSentinel` | main.go:141-151 | a session shuts the server down if and only if a sentinel frame arrives after nothing but valid frames |
| `Traces.StepIgnoresTerminator` | main.go:141-155 | two full reads that agree on the first nine bytes step identically, whatever the tenth byte |
| `Traces.StepKeepsTotal` | main.go:158-177 | a step keeps `total` equal to the size of the seen set |
| `Traces.RunKeepsTotal` | main.go:158-177 | over any event sequence `total` stays equal to the number of distinct keys seen |
| `Traces.RunSeenIsValidKeys` | main.go:155-162 | the seen set afterwards is the seen set before plus the keys of the valid frames processed up to the first sentinel |
| `Traces.RunCountsValidFrames` | main.go:169-177 | `new + duplicates` equals the number of valid frames since the last report, independent of the dedup decisions |
| `Traces.TotalFromInit` | main.go:158-177 | from a fresh server, `total` is the number of distinct valid keys sent |
| `Traces.RunHaltsOnSentinel` | main.go:120-125 | the server halts exactly when a sentinel frame is among the events |
| `Traces.NothingAfterShutdown` | main.go:120-125 | once `Run` has halted on a sentinel frame, later events change neither the state nor the outcome (a frame another session was already reading is not modelled; see "Left out") |
| `Traces.ReportIdempotent` | main.go:209-217 | a second report right after a first changes nothing and shows `0, 0, total` |
| `Scenarios.FirstFrameAcknowledged` | main_test.go:41-59 | `123456789\n` on a fresh server gives a one-key set, `new = total = 1`, and exactly `message received: 123456789\n` |
| `Scenarios.RepeatedFrameCountedOnce` | main_test.go:63-109 | the same frame three times gives a one-key set, `total` 1, `new` 1 and `duplicates` 2 |
| `Scenarios.SentinelIsCaseSensitive` | main_test.go:131-172 | `terminate\n` closes and shuts down with the state unchanged; `Terminate\n` only closes |
| `Scenarios.TextFrameCloses` | main_test.go:113-126 | the first ten bytes of `this is a byte` close the connection with no change |
| `Scenarios.ShortReadCloses` | main.go:127-139 | a read of any byte count other than ten, whatever the buffer holds, or a read error closes the connection with no change |
| `Scenarios.AckOfPlainKey` | main.go:164-167 | a key that does not start with `'0'` is echoed whole |
| `Scenarios.PaddedKeys` | main.go:155-167 | `000000001` and `000000011` are distinct valid keys, echoed as `1` and `11` |
| `Scenarios.LeadingZerosOnlyForDisplay` | main.go:155-167 | sent in turn, both padded keys are stored (two keys) and acknowledged without their zeros |
| `Scenarios.AllZeroKeyEchoesEmpty` | main.go:164-167 | the key `000000000` is acknowledged as `message received: \n` |
| `Scenarios.OneDotAllowed` | main.go:190-207 | `12345.789` is accepted and `1.2.34567` is rejected |

## Left out

- Server.Step: the counters are unbounded naturals. The source's `int32` atomics would wrap after 2^31-1 increments (`main.go:71-82`), and that wrap-around is not modelled.
- Listening on TCP port 4000, the five-connection `LimitListener`, `Accept` errors and the fail-fast `Fatalf` exit (`main.go:43-59`, `99-112`): network and process I/O.
- Traces.NothingAfterShutdown: `Run` stops at the first sentinel frame. In the source, each other open session that is already blocked in its read when the quit channel closes (`main.go:65`) still completes that read. It then runs that one frame through the full step (`main.go:141-177`): it may insert its key, bump `new` and `total` and write an acknowledgement. Only at its next loop check (`main.go:121-124`) does it see the quit signal. `ValidKeys` and `ValidSinceTick` cut off at the same point, so `Traces.RunSeenIsValidKeys`, `Traces.RunCountsValidFrames` and `Traces.TotalFromInit` also leave out those in-flight frames. The reporter also keeps ticking until the process exits; no tick after shutdown is modelled.
- Goroutines, the `quit` channel, the `WaitGroup` and the ordering inside `stop()` (`main.go:61-69`, `109-110`, `121-124`). Shutdown appears only as the `CloseAndShutdown` action and as `Run` halting. So two sessions that both see the sentinel, where a second `close(s.quit)` would panic, are not represented.
- The mutex, and the unlocked membership check racing with inserts from other sessions (`main.go:158-162`): check-and-insert is one atomic step here.
- Server.CreateReport: the snapshot and the reset are one step. In the source, an increment of `new` or `duplicates` by another session after the counters are read (`main.go:210-212`) and before they are zeroed (`main.go:215-216`) is lost from every report. `Traces.RunCountsValidFrames` holds in the source only when no increment falls in that window.
- The ten-second `time.Tick` reporter loop and the `Printf` output (`main.go:89-97`, `209-212`). Only the snapshot values and the reset effect are modelled.
- Partial TCP reads: a read's byte count is an input, so a well-formed stream that arrives in pieces is simply a short read.
- The log line written for each new key (`main.go:166`): its content is the trimmed key, which the acknowledgement already carries.
- `logger/logger.go` (file and stderr output) and `client/client.go` (an interactive client) are not part of this model.

=== FILE: bytes.dfy ===
/** Bytes as the server sees them on the wire, and the ASCII constants the
    protocol compares against. */
module Bytes {

  type byte = bv8

  const Zero: byte := 48     // '0'
  const Nine: byte := 57     // '9'
  const Dot: byte := 46      // '.'
  const Newline: byte := 10  // '\n'

  predicate IsDigit(b: byte) {
    Zero <= b <= Nine
  }

  /** `n` copies of the byte '0'. */
  function Zeros(n: nat): (r: seq<byte>)
    ensures |r| == n
    ensures forall i | 0 <= i < n :: r[i] == Zero
  {
    seq(n, _ => Zero)
  }
}

=== FILE: scenarios.dfy ===
/** Concrete frames from the server's own test cases and its edge cases,
    stated as lemmas about the model. Byte strings are written out, with their text
    in a comment. */
module Scenarios {
  import opened Wrappers
  import opened Bytes
  import opened Validator
  import opened Trim
  import opened Server

  /** A full ten-byte read of a nine-byte payload and its newline. */
  function FrameOf(payload: seq<byte>): (rd: ReadResult)
    requires |payload| == FrameSize - 1
    ensures rd.ReadOk? && rd.count == FrameSize && Payload(rd.buffer) == payload
  {
    assert (payload + [Newline])[..FrameSize - 1] == payload;
    ReadOk(FrameSize, payload + [Newline])
  }

  const OneToNine: seq<byte> := [49, 50, 51, 52, 53, 54, 55, 56, 57]  // "123456789"

  /** A key with no leading zero is echoed whole. */
  lemma AckOfPlainKey(key: seq<byte>)
    requires key != [] && key[0] != Zero
    ensures Ack(key) == AckPrefix + key + [Newline]
  {
  }

  /** "123456789\n" on a fresh server is stored, counted and acknowledged
      with exactly the bytes "message received: 123456789\n". */
  lemma FirstFrameAcknowledged()
    ensures Step(Init, FrameOf(OneToNine)) ==
            StepResult(State({OneToNine}, 1, 0, 1),
                       Continue(Some(AckPrefix + OneToNine + [Newline])))
  {
    assert IsNumeric(OneToNine);
    AckOfPlainKey(OneToNine);
  }

  /** The same frame three times: one key, `total` 1, `unique` 1 and
      `duplicates` 2. */
  lemma RepeatedFrameCountedOnce()
    ensures Run(Init, [Frame(FrameOf(OneToNine)), Frame(FrameOf(OneToNine)),
                       Frame(FrameOf(OneToNine))]).state
            == State({OneToNine}, 1, 2, 1)
  {
    var f := Frame(FrameOf(OneToNine));
    var events := [f, f, f];
    FirstFrameAcknowledged();
    var s1 := State({OneToNine}, 1, 0, 1);
    assert Run(Init, events) == Run(s1, events[1..]);
    var s2 := s1.(duplicates := 1);
    assert Run(s1, events[1..]) == Run(s2, events[2..]);
    assert Run(s2, events[2..]) == Run(s2.(duplicates := 2), []);
  }

  /** "terminate\n" closes the connection and shuts the server down, with the
      state untouched; "Terminate\n" only closes the connection. */
  lemma SentinelIsCaseSensitive(s: State)
    ensures Step(s, FrameOf(Terminate)) == StepResult(s, CloseAndShutdown)
    ensures Step(s, FrameOf(CapitalisedTerminate)) == StepResult(s, Close)
  {
  }

  /** The first ten bytes of "this is a byte" close the connection with no
      answer and no change. */
  lemma TextFrameCloses(s: State)
    ensures Step(s, ReadOk(FrameSize, [116, 104, 105, 115, 32, 105, 115, 32, 97, 32])) // "this is a "
            == StepResult(s, Close)
  {
    var p: seq<byte> := [116, 104, 105, 115, 32, 105, 115, 32, 97];
    assert !Allowed(p[0]);
    assert p[1] != Terminate[1];
  }

  /** A short read or a read error closes the connection whatever the buffer
      holds. */
  lemma ShortReadCloses(s: State, n: nat, b: Buffer)
    requires n != FrameSize
    ensures Step(s, ReadOk(n, b)) == StepResult(s, Close)
    ensures Step(s, ReadError) == StepResult(s, Close)
  {
  }

  /** "000000001" and "000000011": two valid keys, different as keys,
      echoed as "1" and "11". */
  lemma PaddedKeys()
    ensures Zeros(8) + [49] != Zeros(7) + [49, 49]
    ensures IsNumeric(Zeros(8) + [49]) && IsNumeric(Zeros(7) + [49, 49])
    ensures Ack(Zeros(8) + [49]) == AckPrefix + [49] + [Newline]
    ensures Ack(Zeros(7) + [49, 49]) == AckPrefix + [49, 49] + [Newline]
  {
    var a := Zeros(8) + [49];
    var b := Zeros(7) + [49, 49];
    TrimOfPadded(8, [49]);
    TrimOfPadded(7, [49, 49]);
    assert a[7] != b[7];
  }

  /** Sent in turn on one connection, both padded keys are stored and each
      is acknowledged without its leading zeros. */
  lemma LeadingZerosOnlyForDisplay()
    ensures RunSession(Init, [FrameOf(Zeros(8) + [49]), FrameOf(Zeros(7) + [49, 49])]).responses
            == [AckPrefix + [49] + [Newline], AckPrefix + [49, 49] + [Newline]]
    ensures |RunSession(Init, [FrameOf(Zeros(8) + [49]), FrameOf(Zeros(7) + [49, 49])]).state.seen| == 2
  {
    var a := Zeros(8) + [49];
    var b := Zeros(7) + [49, 49];
    PaddedKeys();
    var r1 := FrameOf(a);
    var r2 := FrameOf(b);
    var s1 := State({a}, 1, 0, 1);
    assert Step(Init, r1) == StepResult(s1, Continue(Some(Ack(a))));
    assert [r1, r2][1..] == [r2];
    assert [r2][1..] == [];
    assert RunSession(s1, [r2]).responses == [Ack(b)];
  }

  /** The all-zero key "000000000" is echoed as the empty string. */
  lemma AllZeroKeyEchoesEmpty()
    ensures Ack(Zeros(9)) == AckPrefix + [Newline]
  {
  }

  /** The validator admits a single '.', and rejects a second one. */
  lemma OneDotAllowed()
    ensures IsNumeric([49, 50, 51, 52, 53, 46, 55, 56, 57])   // "12345.789"
    ensures !IsNumeric([49, 46, 50, 46, 51, 52, 53, 54, 55])  // "1.2.34567"
  {
    var q: seq<byte> := [49, 46, 50, 46, 51, 52, 53, 54, 55];
    assert q[1] == Dot && q[3] == Dot;
  }
}

=== FILE: server.dfy ===
/** One server's protocol state and the sequential step a session takes for
    each read: validate the frame, deduplicate its key, count it, and answer
    the peer. Sockets, goroutines and the lock are not modelled: each step is
    one atomic transition of the shared state. */
module Server {
  import opened Wrappers
  import opened Bytes
  import opened Validator
  import opened Trim

  /** Nine payload bytes and one terminator byte. */
  const FrameSize: nat := 10

  /** The session's read buffer, allocated once with ten bytes. */
  type Buffer = b: seq<byte> | |b| == FrameSize witness Zeros(FrameSize)

  /** What one `Read` on the connection returned: an error (end of stream
      included), or a byte count together with the buffer it filled. */
  datatype ReadResult = ReadError | ReadOk(count: nat, buffer: Buffer)

  /** The shared server state: the set of keys seen so far, the per-interval
      counters `unique` (the source's `new`) and `duplicates`, and the
      lifetime counter `total`. */
  datatype State = State(seen: set<seq<byte>>, unique: nat, duplicates: nat, total: nat)

  /** A fresh server: nothing seen, every counter zero. */
  const Init: State := State({}, 0, 0, 0)

  /** What the session does after a step: close its connection, close it and
      shut the whole server down, or keep reading (after writing a response
      or writing nothing). */
  datatype Action = Close | CloseAndShutdown | Continue(response: Option<seq<byte>>)

  datatype StepResult = StepResult(state: State, action: Action)

  /** "message received: " */
  const AckPrefix: seq<byte> :=
    [109, 101, 115, 115, 97, 103, 101, 32, 114, 101, 99, 101, 105, 118, 101, 100, 58, 32]

  /** The bytes before the terminator. The terminator itself is never looked at. */
  function Payload(b: Buffer): (p: seq<byte>)
    ensures |p| == FrameSize - 1
  {
    b[..FrameSize - 1]
  }

  /** The acknowledgement for a first-seen key: its display form between the
      fixed prefix and a newline. */
  function Ack(key: seq<byte>): (r: seq<byte>)
    ensures |r| == |AckPrefix| + |TrimLeftZeros(key)| + 1
    ensures r[..|AckPrefix|] == AckPrefix
    ensures r[|AckPrefix|..|r| - 1] == TrimLeftZeros(key)
    ensures r[|r| - 1] == Newline
  {
    AckPrefix + TrimLeftZeros(key) + [Newline]
  }

  /** The acknowledgement carries the key's display form between the prefix
      and the newline, so for keys of one width (every key is nine bytes)
      distinct keys are acknowledged differently. */
  lemma AckDeterminesKey(k1: seq<byte>, k2: seq<byte>)
    requires |k1| == |k2|
    requires Ack(k1) == Ack(k2)
    ensures k1 == k2
  {
    TrimInjectiveAtFixedWidth(k1, k2);
  }

  /** A full-length read whose payload passes the validator. */
  predicate IsValidFrame(rd: ReadResult) {
    rd.ReadOk? && rd.count == FrameSize && IsNumeric(Payload(rd.buffer))
  }

  /** A full-length read whose payload is the shutdown sentinel. */
  predicate IsShutdownFrame(rd: ReadResult) {
    rd.ReadOk? && rd.count == FrameSize && IsTerminate(Payload(rd.buffer))
  }

  /** One pass through the session loop after the shutdown check. */
  function Step(s: State, rd: ReadResult): (r: StepResult)
    // How the frame is classified
    ensures r.action == CloseAndShutdown <==> IsShutdownFrame(rd)
    ensures r.action == Close <==> !IsValidFrame(rd) && !IsShutdownFrame(rd)
    ensures r.action.Continue? <==> IsValidFrame(rd)
    // A frame that is not processed changes nothing
    ensures !IsValidFrame(rd) ==> r.state == s
    // A first-seen key is stored, counted as new and acknowledged
    ensures IsValidFrame(rd) && Payload(rd.buffer) !in s.seen ==>
              && r.state.seen == s.seen + {Payload(rd.buffer)}
              && |r.state.seen| == |s.seen| + 1
              && r.state.unique == s.unique + 1
              && r.state.total == s.total + 1
              && r.state.duplicates == s.duplicates
              && r.action == Continue(Some(Ack(Payload(rd.buffer))))
    // A repeated key is only counted as a duplicate, with no answer
    ensures IsValidFrame(rd) && Payload(rd.buffer) in s.seen ==>
              && r.state.seen == s.seen
              && r.state.unique == s.unique
              && r.state.total == s.total
              && r.state.duplicates == s.duplicates + 1
              && r.action == Continue(None)
  {
    match rd
    case ReadError => StepResult(s, Close)
    case ReadOk(count, buffer) =>
      if count != FrameSize then
        StepResult(s, Close)
      else if !IsNumeric(buffer[..count - 1]) then
        if IsTerminate(buffer[..count - 1]) then
          StepResult(s, CloseAndShutdown)
        else
          StepResult(s, Close)
      else
        var key := buffer[..|buffer| - 1];
        NumericIsNotTerminate(key);
        if key !in s.seen then
          StepResult(State(s.seen + {key}, s.unique + 1, s.duplicates, s.total + 1),
                     Continue(Some(Ack(key))))
        else
          StepResult(s.(duplicates := s.duplicates + 1), Continue(None))
  }

  /** Zeroes the per-interval counters; the seen set and `total` stay. */
  function Reset(s: State): (r: State)
    ensures r.unique == 0 && r.duplicates == 0
    ensures r.total == s.total && r.seen == s.seen
  {
    s.(unique := 0, duplicates := 0)
  }

  /** The three counter values a report prints. */
  datatype Snapshot = Snapshot(unique: nat, duplicates: nat, total: nat)

  datatype Report = Report(snapshot: Snapshot, state: State)

  /** A report: read the three counters, then reset the per-interval ones. */
  function CreateReport(s: State): (r: Report)
    ensures r.snapshot == Snapshot(s.unique, s.duplicates, s.total)
    ensures r.state == Reset(s)
  {
    Report(Snapshot(s.unique, s.duplicates, s.total), Reset(s))
  }

  /** How a session's loop ended: its connection was closed, it shut the
      server down, or it is still waiting for its next read. */
  datatype SessionEnd = Closed | ShutDown | Waiting

  datatype SessionResult = SessionResult(state: State, responses: seq<seq<byte>>, end: SessionEnd)

  /** One connection's loop over the reads it gets, up to the first step that
      closes it; the responses are the bytes written back, in order. */
  function RunSession(s: State, frames: seq<ReadResult>): (r: SessionResult)
    ensures s.seen <= r.state.seen
    ensures r.state.total - s.total == |r.state.seen| - |s.seen| == |r.responses|
    ensures r.state.unique - s.unique == |r.responses|
    ensures r.state.total >= s.total && r.state.unique >= s.unique && r.state.duplicates >= s.duplicates
    ensures r.end == Waiting ==> forall i | 0 <= i < |frames| :: IsValidFrame(frames[i])
    decreases |frames|
  {
    if frames == [] then
      SessionResult(s, [], Waiting)
    else
      var st := Step(s, frames[0]);
      match st.action
      case Close => SessionResult(st.state, [], Closed)
      case CloseAndShutdown => SessionResult(st.state, [], ShutDown)
      case Continue(response) =>
        var rest := RunSession(st.state, frames[1..]);
        assert IsValidFrame(frames[0]);
        assert forall i | 1 <= i < |frames| :: frames[i] == frames[1..][i - 1];
        var out := if response.Some? then [response.value] else [];
        SessionResult(rest.state, out + rest.responses, rest.end)
  }

  /** What happens on the server, serialised: a frame read by any open
      session, or a tick of the reporter. */
  datatype Event = Frame(read: ReadResult) | Tick

  datatype RunResult = RunResult(state: State, halted: bool)

  /** The server over a sequence of events. A sentinel frame stops it: with
      the quit channel closed, a session that checks it at the top of its loop
      returns without reading again (a read already in progress is not
      modelled). A frame that merely closes one connection leaves the others
      running. Keys are only ever added, and `total` grows with the seen set. */
  function Run(s: State, events: seq<Event>): (r: RunResult)
    ensures s.seen <= r.state.seen
    ensures r.state.total - s.total == |r.state.seen| - |s.seen|
    ensures r.state.total >= s.total
    decreases |events|
  {
    if events == [] then
      RunResult(s, false)
    else
      match events[0]
      case Tick => Run(CreateReport(s).state, events[1..])
      case Frame(rd) =>
        var st := Step(s, rd);
        if st.action == CloseAndShutdown then RunResult(st.state, true)
        else Run(st.state, events[1..])
  }
}

=== FILE: sessions.dfy ===
/** What one connection's loop amounts to: which frames it answers, with
    what, and when it ends. */
module Sessions {
  import opened Wrappers
  import opened Bytes
  import opened Validator
  import opened Server

  /** Every response acknowledges some key of `keys`. */
  predicate AcksOf(responses: seq<seq<byte>>, keys: set<seq<byte>>) {
    forall i | 0 <= i < |responses| :: exists k :: k in keys && responses[i] == Ack(k)
  }

  predicate Distinct(responses: seq<seq<byte>>) {
    forall i, j | 0 <= i < j < |responses| :: responses[i] != responses[j]
  }

  lemma AcksOfCons(key: seq<byte>, responses: seq<seq<byte>>, keys: set<seq<byte>>, bigger: set<seq<byte>>)
    requires AcksOf(responses, keys) && keys <= bigger && key in bigger
    ensures AcksOf([Ack(key)] + responses, bigger)
  {
  }

  /** A nine-byte key outside `keys`, all of whose members are nine bytes, is
      not acknowledged among acknowledgements of `keys`. */
  lemma AckNotAmong(key: seq<byte>, responses: seq<seq<byte>>, keys: set<seq<byte>>)
    requires AcksOf(responses, keys)
    requires key !in keys && |key| == FrameSize - 1
    requires forall k | k in keys :: |k| == FrameSize - 1
    ensures Ack(key) !in responses
  {
    if Ack(key) in responses {
      var i :| 0 <= i < |responses| && responses[i] == Ack(key);
      var k :| k in keys && responses[i] == Ack(k);
      AckDeterminesKey(key, k);
    }
  }

  lemma DistinctCons(x: seq<byte>, responses: seq<seq<byte>>)
    requires Distinct(responses) && x !in responses
    ensures Distinct([x] + responses)
  {
  }

  /** One valid frame, then the rest of the session. */
  lemma SessionUnfold(s: State, frames: seq<ReadResult>)
    requires frames != [] && IsValidFrame(frames[0])
    ensures var key := Payload(frames[0].buffer);
            var next := Step(s, frames[0]).state;
            var rest := RunSession(next, frames[1..]);
            && |key| == FrameSize - 1
            && next.seen == s.seen + {key}
            && RunSession(s, frames).state == rest.state
            && RunSession(s, frames).end == rest.end
            && RunSession(s, frames).responses
               == (if key in s.seen then [] else [Ack(key)]) + rest.responses
  {
  }

  /** A first frame that is not valid ends the session at once, with no
      response and no change: by shutting the server down if it is the
      sentinel, by closing the connection otherwise. */
  lemma SessionStopsAtInvalid(s: State, frames: seq<ReadResult>)
    requires frames != [] && !IsValidFrame(frames[0])
    ensures RunSession(s, frames).state == s
    ensures RunSession(s, frames).responses == []
    ensures RunSession(s, frames).end == (if IsShutdownFrame(frames[0]) then ShutDown else Closed)
  {
  }

  /** Every key a session adds is a nine-byte payload. */
  lemma {:induction false} SessionNewKeysAreNineBytes(s: State, frames: seq<ReadResult>)
    ensures forall k | k in RunSession(s, frames).state.seen - s.seen :: |k| == FrameSize - 1
    decreases |frames|
  {
    if frames != [] && IsValidFrame(frames[0]) {
      SessionUnfold(s, frames);
      SessionNewKeysAreNineBytes(Step(s, frames[0]).state, frames[1..]);
    }
  }

  /** The payloads of the frames a session reads before its first frame that
      is not valid: stated on the frames alone. */
  function ValidPrefixKeys(frames: seq<ReadResult>): set<seq<byte>>
    decreases |frames|
  {
    if frames == [] || !IsValidFrame(frames[0]) then {}
    else {Payload(frames[0].buffer)} + ValidPrefixKeys(frames[1..])
  }

  /** The keys a session leaves in the seen set are exactly the old ones plus
      the payloads of its valid frames up to the first invalid one. */
  lemma {:induction false} SessionSeenIsValidKeys(s: State, frames: seq<ReadResult>)
    ensures RunSession(s, frames).state.seen == s.seen + ValidPrefixKeys(frames)
    decreases |frames|
  {
    if frames == [] {
    } else if IsValidFrame(frames[0]) {
      SessionUnfold(s, frames);
      SessionSeenIsValidKeys(Step(s, frames[0]).state, frames[1..]);
    } else {
      SessionStopsAtInvalid(s, frames);
    }
  }

  /** Every response of a session acknowledges a key that the session added
      to the seen set. */
  lemma {:induction false} SessionAnswersOnlyNewKeys(s: State, frames: seq<ReadResult>)
    ensures AcksOf(RunSession(s, frames).responses, RunSession(s, frames).state.seen - s.seen)
    decreases |frames|
  {
    if frames != [] && IsValidFrame(frames[0]) {
      var key := Payload(frames[0].buffer);
      var next := Step(s, frames[0]).state;
      SessionUnfold(s, frames);
      SessionAnswersOnlyNewKeys(next, frames[1..]);
      var r := RunSession(s, frames);
      var rest := RunSession(next, frames[1..]);
      assert s.seen <= next.seen <= rest.state.seen;
      if key !in s.seen {
        assert r.responses == [Ack(key)] + rest.responses;
        AcksOfCons(key, rest.responses, rest.state.seen - next.seen, r.state.seen - s.seen);
      } else {
        assert r.responses == rest.responses;
        assert r.state.seen - s.seen == rest.state.seen - next.seen;
      }
    }
  }

  /** Every key a session added to the seen set is acknowledged. */
  lemma {:induction false} SessionAnswersEveryNewKey(s: State, frames: seq<ReadResult>)
    ensures forall k | k in RunSession(s, frames).state.seen - s.seen ::
              Ack(k) in RunSession(s, frames).responses
    decreases |frames|
  {
    if frames != [] && IsValidFrame(frames[0]) {
      var key := Payload(frames[0].buffer);
      var next := Step(s, frames[0]).state;
      SessionUnfold(s, frames);
      SessionAnswersEveryNewKey(next, frames[1..]);
      var r := RunSession(s, frames);
      var rest := RunSession(next, frames[1..]);
      forall k | k in r.state.seen - s.seen ensures Ack(k) in r.responses {
        if k != key {
          assert k in rest.state.seen - next.seen;
          assert Ack(k) in rest.responses;
        }
      }
    }
  }

  /** No key is acknowledged twice on one session: the responses are
      pairwise different. */
  lemma {:induction false} SessionResponsesDistinct(s: State, frames: seq<ReadResult>)
    ensures Distinct(RunSession(s, frames).responses)
    decreases |frames|
  {
    if frames != [] && IsValidFrame(frames[0]) {
      var key := Payload(frames[0].buffer);
      var next := Step(s, frames[0]).state;
      SessionUnfold(s, frames);
      SessionResponsesDistinct(next, frames[1..]);
      var rest := RunSession(next, frames[1..]);
      if key !in s.seen {
        SessionAnswersOnlyNewKeys(next, frames[1..]);
        SessionNewKeysAreNineBytes(next, frames[1..]);
        AckNotAmong(key, rest.responses, rest.state.seen - next.seen);
        DistinctCons(Ack(key), rest.responses);
      }
    }
  }

  /** A session is still reading after its frames exactly when every one of
      them was valid. */
  lemma {:induction false} SessionWaitsIffAllValid(s: State, frames: seq<ReadResult>)
    ensures RunSession(s, frames).end == Waiting <==>
              forall i | 0 <= i < |frames| :: IsValidFrame(frames[i])
    decreases |frames|
  {
    if frames != [] {
      if IsValidFrame(frames[0]) {
        SessionUnfold(s, frames);
        SessionWaitsIffAllValid(Step(s, frames[0]).state, frames[1..]);
        assert forall i | 1 <= i < |frames| :: frames[i] == frames[1..][i - 1];
      } else {
        SessionStopsAtInvalid(s, frames);
      }
    }
  }

  /** Frame `i` is a sentinel and every frame before it is valid. */
  predicate SentinelAfterValid(frames: seq<ReadResult>, i: int) {
    && 0 <= i < |frames|
    && IsShutdownFrame(frames[i])
    && forall j | 0 <= j < i :: IsValidFrame(frames[j])
  }

  /** Dropping a valid first frame moves a sentinel-after-valid position
      back by one. */
  lemma SentinelAfterValidShift(frames: seq<ReadResult>, i: int)
    requires frames != [] && IsValidFrame(frames[0])
    ensures SentinelAfterValid(frames, i + 1) <==> SentinelAfterValid(frames[1..], i)
  {
  }

  /** A session that shut the server down did so on a sentinel frame that
      came after valid frames only. */
  lemma {:induction false} ShutDownOnlyOnSentinel(s: State, frames: seq<ReadResult>) returns (i: nat)
    requires RunSession(s, frames).end == ShutDown
    ensures SentinelAfterValid(frames, i)
    decreases |frames|
  {
    if !IsValidFrame(frames[0]) {
      SessionStopsAtInvalid(s, frames);
      i := 0;
    } else {
      SessionUnfold(s, frames);
      var k := ShutDownOnlyOnSentinel(Step(s, frames[0]).state, frames[1..]);
      SentinelAfterValidShift(frames, k);
      i := k + 1;
    }
  }

  /** A sentinel frame after valid frames only shuts the server down. */
  lemma {:induction false} SentinelShutsDown(s: State, frames: seq<ReadResult>, i: nat)
    requires SentinelAfterValid(frames, i)
    ensures RunSession(s, frames).end == ShutDown
    decreases i
  {
    if i > 0 {
      SessionUnfold(s, frames);
      SentinelAfterValidShift(frames, i - 1);
      SentinelShutsDown(Step(s, frames[0]).state, frames[1..], i - 1);
    } else {
      assert IsTerminate(Payload(frames[0].buffer));
      SessionStopsAtInvalid(s, frames);
    }
  }

  /** A session shuts the server down exactly when a sentinel frame arrives
      after nothing but valid frames. */
  lemma SessionShutsDownOnSentinel(s: State, frames: seq<ReadResult>)
    ensures RunSession(s, frames).end == ShutDown <==>
              exists i :: SentinelAfterValid(frames, i)
  {
    if RunSession(s, frames).end == ShutDown {
      var i := ShutDownOnlyOnSentinel(s, frames);
    }
    if i :| SentinelAfterValid(frames, i) {
      SentinelShutsDown(s, frames, i);
    }
  }

}

=== FILE: traces.dfy ===
/** What the server's counters and seen set amount to after a whole sequence
    of events, stated against reference counts taken from the events alone. */
module Traces {
  import opened Bytes
  import opened Validator
  import opened Server

  predicate IsShutdownEvent(e: Event) {
    e.Frame? && IsShutdownFrame(e.read)
  }

  /** The valid frames since the last tick, added to `base`, up to the first
      sentinel frame. This looks only at the frames, never at the seen set. */
  function ValidSinceTick(base: nat, events: seq<Event>): nat
    decreases |events|
  {
    if events == [] then base
    else
      match events[0]
      case Tick => ValidSinceTick(0, events[1..])
      case Frame(rd) =>
        if IsShutdownFrame(rd) then base
        else ValidSinceTick(base + (if IsValidFrame(rd) then 1 else 0), events[1..])
  }

  /** The keys of the valid frames up to the first sentinel frame. */
  function ValidKeys(events: seq<Event>): set<seq<byte>>
    decreases |events|
  {
    if events == [] then {}
    else
      match events[0]
      case Tick => ValidKeys(events[1..])
      case Frame(rd) =>
        if IsShutdownFrame(rd) then {}
        else (if IsValidFrame(rd) then {Payload(rd.buffer)} else {}) + ValidKeys(events[1..])
  }

  /** The tenth byte of a frame is never looked at: two full reads that agree
      on the first nine bytes lead to the same step, whatever the terminator. */
  lemma StepIgnoresTerminator(s: State, b1: Buffer, b2: Buffer)
    requires b1[..FrameSize - 1] == b2[..FrameSize - 1]
    ensures Step(s, ReadOk(FrameSize, b1)) == Step(s, ReadOk(FrameSize, b2))
  {
  }

  /** Each step keeps `total` equal to the number of keys seen. */
  lemma StepKeepsTotal(s: State, rd: ReadResult)
    requires s.total == |s.seen|
    ensures Step(s, rd).state.total == |Step(s, rd).state.seen|
  {
  }

  /** `total` stays equal to the number of distinct keys seen. */
  lemma RunKeepsTotal(s: State, events: seq<Event>)
    requires s.total == |s.seen|
    ensures Run(s, events).state.total == |Run(s, events).state.seen|
  {
  }

  /** The keys seen afterwards are the keys seen before plus the keys of the
      valid frames processed. */
  lemma {:induction false} RunSeenIsValidKeys(s: State, events: seq<Event>)
    ensures Run(s, events).state.seen == s.seen + ValidKeys(events)
    decreases |events|
  {
    if events != [] {
      match events[0]
      case Tick => RunSeenIsValidKeys(CreateReport(s).state, events[1..]);
      case Frame(rd) =>
        if Step(s, rd).action != CloseAndShutdown {
          RunSeenIsValidKeys(Step(s, rd).state, events[1..]);
        }
    }
  }

  /** `unique + duplicates` is the number of valid frames since the last
      report, whatever the dedup decisions were. */
  lemma {:induction false} RunCountsValidFrames(s: State, events: seq<Event>)
    ensures Run(s, events).state.unique + Run(s, events).state.duplicates
            == ValidSinceTick(s.unique + s.duplicates, events)
    decreases |events|
  {
    if events != [] {
      match events[0]
      case Tick => RunCountsValidFrames(CreateReport(s).state, events[1..]);
      case Frame(rd) =>
        var next := Step(s, rd).state;
        if Step(s, rd).action != CloseAndShutdown {
          assert next.unique + next.duplicates
                 == s.unique + s.duplicates + (if IsValidFrame(rd) then 1 else 0);
          assert Run(s, events) == Run(next, events[1..]);
          RunCountsValidFrames(next, events[1..]);
        }
    }
  }

  /** From a fresh server, `total` is the number of distinct valid keys sent. */
  lemma TotalFromInit(events: seq<Event>)
    ensures Run(Init, events).state.seen == ValidKeys(events)
    ensures Run(Init, events).state.total == |ValidKeys(events)|
  {
    RunSeenIsValidKeys(Init, events);
    RunKeepsTotal(Init, events);
  }

  /** The server halts exactly when a sentinel frame is among the events. */
  lemma {:induction false} RunHaltsOnSentinel(s: State, events: seq<Event>)
    ensures Run(s, events).halted <==>
              exists i | 0 <= i < |events| :: IsShutdownEvent(events[i])
    decreases |events|
  {
    if events != [] {
      match events[0]
      case Tick =>
        RunHaltsOnSentinel(CreateReport(s).state, events[1..]);
        assert forall i | 1 <= i < |events| :: events[i] == events[1..][i - 1];
      case Frame(rd) =>
        if Step(s, rd).action == CloseAndShutdown {
          assert IsShutdownEvent(events[0]);
        } else {
          RunHaltsOnSentinel(Step(s, rd).state, events[1..]);
          assert forall i | 1 <= i < |events| :: events[i] == events[1..][i - 1];
        }
    }
  }

  /** Once halted, later events change nothing. */
  lemma {:induction false} NothingAfterShutdown(s: State, events: seq<Event>, later: seq<Event>)
    requires Run(s, events).halted
    ensures Run(s, events + later) == Run(s, events)
    decreases |events|
  {
    assert events != [];
    assert (events + later)[0] == events[0];
    assert (events + later)[1..] == events[1..] + later;
    match events[0]
    case Tick => NothingAfterShutdown(CreateReport(s).state, events[1..], later);
    case Frame(rd) =>
      if Step(s, rd).action != CloseAndShutdown {
        NothingAfterShutdown(Step(s, rd).state, events[1..], later);
      }
  }

  /** A report zeroes the per-interval counters once and for all: a second
      report right after changes nothing more. */
  lemma ReportIdempotent(s: State)
    ensures CreateReport(CreateReport(s).state).state == CreateReport(s).state
    ensures CreateReport(CreateReport(s).state).snapshot == Snapshot(0, 0, s.total)
  {
  }
}

=== FILE: trim.dfy ===
/** Display form of a record key: Go's `strings.TrimLeft(key, "0")`, which
    drops every leading '0' byte and keeps the rest untouched. */
module Trim {
  import opened Bytes

  function TrimLeftZeros(s: seq<byte>): (r: seq<byte>)
    ensures |r| <= |s|
    ensures r == [] || r[0] != Zero
    ensures s == Zeros(|s| - |r|) + r
  {
    if |s| > 0 && s[0] == Zero then
      var r := TrimLeftZeros(s[1..]);
      assert Zeros(|s| - |r|) + r == [Zero] + (Zeros(|s| - 1 - |r|) + r);
      r
    else
      assert Zeros(0) == [];
      s
  }

  /** The trim is determined by the split: whatever run of zeros is removed,
      the rest is returned whole, as long as it does not itself start with a
      zero. */
  lemma {:induction false} TrimOfPadded(k: nat, t: seq<byte>)
    requires t == [] || t[0] != Zero
    ensures TrimLeftZeros(Zeros(k) + t) == t
  {
    if k > 0 {
      assert (Zeros(k) + t)[1..] == Zeros(k - 1) + t;
      TrimOfPadded(k - 1, t);
    } else {
      assert Zeros(0) + t == t;
    }
  }

  /** Trimming twice is the same as trimming once. */
  lemma TrimIdempotent(s: seq<byte>)
    ensures TrimLeftZeros(TrimLeftZeros(s)) == TrimLeftZeros(s)
  {
  }

  /** For keys of one fixed width the display form loses nothing: two keys
      of the same length with the same trimmed form are the same key. */
  lemma TrimInjectiveAtFixedWidth(a: seq<byte>, b: seq<byte>)
    requires |a| == |b|
    requires TrimLeftZeros(a) == TrimLeftZeros(b)
    ensures a == b
  {
  }
}

=== FILE: validator.dfy ===
/** The payload checks of a frame: the digit validator (`checkForCharacters`)
    and the shutdown sentinel (`checkForTerminate`). */
module Validator {
  import opened Bytes

  /** A byte the validator lets through on its own: an ASCII digit or '.'. */
  predicate Allowed(b: byte) {
    IsDigit(b) || b == Dot
  }

  /** The acceptance rule, stated without a scan: every byte is a digit or
      '.', and no two positions both hold a '.'. */
  predicate IsNumeric(p: seq<byte>) {
    && (forall i | 0 <= i < |p| :: Allowed(p[i]))
    && (forall i, j | 0 <= i < j < |p| :: !(p[i] == Dot && p[j] == Dot))
  }

  /** The validator as the server runs it: one left-to-right pass with a
      separator counter, rejecting at the first disallowed byte or at the
      second '.'. */
  method CheckForCharacters(p: seq<byte>) returns (ok: bool)
    ensures ok <==> IsNumeric(p)
  {
    var sep := 0;
    for i := 0 to |p|
      invariant forall k | 0 <= k < i :: Allowed(p[k])
      invariant forall k, l | 0 <= k < l < i :: !(p[k] == Dot && p[l] == Dot)
      invariant sep == 0 || sep == 1
      invariant sep == 0 <==> forall k | 0 <= k < i :: p[k] != Dot
    {
      if Zero <= p[i] <= Nine {
        continue;
      }
      if p[i] == Dot {
        if sep > 0 {
          var k :| 0 <= k < i && p[k] == Dot;
          assert !IsNumeric(p) by {
            assert p[k] == Dot && p[i] == Dot;
          }
          return false;
        }
        sep := sep + 1;
        continue;
      }
      assert !Allowed(p[i]);
      return false;
    }
    return true;
  }

  /** The shutdown sentinel: the nine bytes of "terminate", lower case. */
  const Terminate: seq<byte> := [116, 101, 114, 109, 105, 110, 97, 116, 101]  // "terminate"

  /** Exact, case-sensitive comparison with the sentinel. A payload that
      matches is nine bytes long and is not numeric, so the server can only
      reach the sentinel after the validator has rejected the frame. */
  predicate IsTerminate(p: seq<byte>): (r: bool)
    ensures r ==> |p| == 9 && !IsNumeric(p)
  {
    assert p == Terminate ==> !Allowed(p[0]);
    p == Terminate
  }

  /** A numeric payload is never the sentinel. */
  lemma NumericIsNotTerminate(p: seq<byte>)
    requires IsNumeric(p)
    ensures !IsTerminate(p)
  {
  }

  /** "Terminate", capitalised. */
  const CapitalisedTerminate: seq<byte> := [84, 101, 114, 109, 105, 110, 97, 116, 101]

  /** The comparison is case-sensitive: "Terminate" is not the sentinel, and
      it is not numeric either. */
  lemma CapitalisedTerminateIsPlainInvalid()
    ensures !IsTerminate(CapitalisedTerminate)
    ensures !IsNumeric(CapitalisedTerminate)
  {
  }
}

=== FILE: wrappers.dfy ===
/** The optional value used for a frame's response: a step either writes
    bytes back to the peer or writes nothing. */
module Wrappers {

  datatype Option<+T> = None | Some(value: T)
}
